=== FILE: README.md ===
# gzCloneReference in Dafny

gzCloneReference is a small Maya tool. The user picks some loaded references in a list and presses "Clone". Each picked reference is then loaded again `copies` times, under a namespace derived from it. Every copy gets the source's transform and is shifted by a per-axis offset. The new top nodes are then sorted by their reversed base namespace and cut, in that order, into groups of `len(itemSelected)` nodes. Which nodes share a group depends on the namespaces the host assigns to the new references, which this model takes as given. A search box above the list hides rows that do not match.

This project models the two operations that carry the logic, `clone()` and `itemFilter()`, as pure functions. It proves what they compute.

- `Strings`: the Python string operations the tool uses. These are `split(':')[0]`, `''.join(reversed(...))`, and `<` on `str`. Python's `<` is lexicographic. Dafny's `<` on sequences means "proper prefix", so `LexLess` is defined separately.
- `Namespace`: the namespace each copy is loaded under. It is the custom text or the reference's base namespace, followed by `_c0001`.
- `Placement`: the position copy `n` is moved to in world space, which is `refPos + offset + offset * n` on each axis. Here `refPos` is the source's translate as `xform -q -t` returns it, which is read without the world-space flag (line 531).
- `KeySort`: the `sorted(..., key=...)` call as a stable insertion sort. Its specification says the result is a permutation, is ordered by key, and keeps each key's elements in their original order. The lemmas show that exactly one sequence meets that specification.
- `Chunks`: the `divide_chunks` generator. Its specification says the chunks join back to the list, none is empty or longer than `n`, and all but the last are full. The lemmas show that this cut is unique, give the number of chunks, and give each chunk's slice.
- `ItemFilter`: the search box. Lower-case the filter text and each row's text, then do a substring test.
- `Clone`: the whole `clone()` run, as the sequence of host calls it makes (`Command`). The host is replaced by data:
  - the per-source queries (`referenceQuery -f`, `xform -q -t`) become the fields of `SourceRef`;
  - the node ids that `file -r` followed by `ls -assemblies` hands back become an oracle sequence `ids`, consumed in order.

The source rebinds the loop variable `n` to `len(itemSelected)` inside the copy loop (line 573). `range` rebinds `n` at the top of the next iteration, so copy positions still use the copy index. The model follows that behaviour.

## Model

| member | source | states |
|---|---|---|
| Strings.BaseNamespace | src/gzCloneReference.py:537 | `ref.split(':')[0]` is a prefix of the name with no ':' in it, and it is the whole name or is followed by ':' |
| Strings.BaseNamespaceOfSplit | src/gzCloneReference.py:537 | a name `p + ":..."`, where `p` has no ':', has base namespace `p` |
| Strings.Reverse | src/gzCloneReference.py:565 | the reversed key has the same length, and character `i` is character `len-1-i` of the input |
| Strings.LexLeTotalOrder | src/gzCloneReference.py:565 | Python's `<=` on the sort keys is reflexive, total, antisymmetric and transitive, as `sorted` needs |
| Namespace.DeriveNamespaceShape | src/gzCloneReference.py:533-537 | every namespace ends in `_c0001`; in front of it stands the custom text, or the reference's name up to its first ':' |
| Namespace.FromSelectionHasNoColon | src/gzCloneReference.py:537 | a namespace taken from the selection contains no ':' |
| Namespace.CustomIgnoresSource | src/gzCloneReference.py:534-535 | in Custom mode every source gets the same namespace |
| Namespace.ExampleFromSelection | src/gzCloneReference.py:512-537 | `charA:root` is cloned under `charA_c0001` |
| Placement.PositionIsProgression | src/gzCloneReference.py:555-557 | copy `n` sits at the anchor plus `n + 1` times the offset |
| Placement.FirstCopyOneOffsetAway | src/gzCloneReference.py:555-557 | the first copy sits exactly one offset away from its source |
| Placement.ConsecutiveCopiesStep | src/gzCloneReference.py:555-557 | consecutive copies of one source are exactly one offset apart |
| Placement.CopyOnAnchorIffZeroOffset | src/gzCloneReference.py:555-557 | a copy lands on its source's position if and only if the offset is zero |
| Placement.CopiesDistinct | src/gzCloneReference.py:555-557 | with a non-zero offset, no two copies of one source share a position |
| KeySort.SortByKeyIsStableSort | src/gzCloneReference.py:565 | the sort returns a permutation of its input, ordered by reversed base namespace, with each key's elements in their input order |
| KeySort.StableSortUnique | src/gzCloneReference.py:565 | two key-sorted sequences that keep every key's elements in the same order are equal |
| KeySort.SortByKeyIsTheStableSort | src/gzCloneReference.py:565 | any sorted, stable rearrangement of the input (Python's `sorted` result) equals `SortByKey` |
| KeySort.SortInterleavesTwoByTwo | src/gzCloneReference.py:565 | with keys ordered `a1 < b1 < a2 < b2`, the source-by-source list comes out copy by copy |
| KeySort.ExampleSortCopyByCopy | src/gzCloneReference.py:565 | the host's nodes `a_c0001:root, a_c0002:root, b_c0001:root, b_c0002:root` sort to `a_c0001, b_c0001, a_c0002, b_c0002`, because the reversed key `1000c_a` puts the copy digit first |
| Chunks.DivideChunksIsChunking | src/gzCloneReference.py:569-574 | the chunks join back to the list, none is empty or longer than `n`, and all but the last have exactly `n` |
| Chunks.ChunkingUnique | src/gzCloneReference.py:569-574 | any cut with those three properties is the one `divide_chunks` makes |
| Chunks.ChunkCount | src/gzCloneReference.py:569-571 | there are `ceil(len(l) / n)` chunks |
| Chunks.ChunkAt | src/gzCloneReference.py:569-571 | chunk `i` is the slice `l[i*n : (i+1)*n]`, clamped at the end of the list |
| Chunks.ExampleFiveByTwo | src/gzCloneReference.py:569-571 | five names in chunks of two give two pairs and a single |
| ItemFilter.ContainsIff | src/gzCloneReference.py:409 | Python's `in` on strings is true exactly when the needle occurs at some index |
| ItemFilter.ShowAll | src/gzCloneReference.py:405-407 | an empty filter shows every row and keeps the texts |
| ItemFilter.HideUnmatched | src/gzCloneReference.py:408-413 | a non-empty filter hides a row exactly when the filter is not in its lower-cased text, and keeps the texts |
| ItemFilter.ItemFilter | src/gzCloneReference.py:403-413 | only the hidden flags change, and a row is hidden if and only if the lower-cased filter occurs nowhere in its lower-cased text |
| ItemFilter.LowerIdempotent | src/gzCloneReference.py:404 | lower-casing twice is lower-casing once |
| ItemFilter.FilterIgnoresCase | src/gzCloneReference.py:404 | a filter and its lower-cased form hide the same rows |
| ItemFilter.NarrowingOnlyHides | src/gzCloneReference.py:403-413 | when the shorter filter occurs in the longer one, every row the longer one shows is also shown by the shorter one |
| Clone.EmptySelectionOnlyReports | src/gzCloneReference.py:518-520 | with nothing selected, the run only posts the warning: it creates, moves and groups nothing |
| Clone.CreationTraceObserved | src/gzCloneReference.py:522-547 | the loops create exactly the given nodes, source by source and copy by copy, and group nothing |
| Clone.GroupTraceObserved | src/gzCloneReference.py:577-580 | with the check box on, there is one `group` call per chunk, in order, all under the one name; with it off, there are none |
| Clone.CloneEffects | src/gzCloneReference.py:511-590 | a run creates exactly the first `len(itemSelected) * copies` oracle nodes, in order; it groups the chunks one call each, or not at all; and it ends with the success report; it makes no other call, since the trace has exactly `3 * len(itemSelected) * copies` creation calls, one call per group, and the report |
| Clone.CloneCreationOrder | src/gzCloneReference.py:522-560 | calls `3k`, `3k+1` and `3k+2`, for `k = s * copies + n`, load source `s`'s file under its namespace, match the new node to source `s`, and move it to copy `n`'s position |
| Clone.ChunkedCoversCreated | src/gzCloneReference.py:563-574 | the grouped chunks hold every created node exactly once, in key order, one chunk per `len(itemSelected)` nodes, and only the last may be short |
| Clone.ExampleGroupsCopyByCopy | src/gzCloneReference.py:563-580 | two sources with two copies each are grouped as `[a_c0001, b_c0001]` and `[a_c0002, b_c0002]`: each group holds one copy of every source |

`cloneReference.py` holds an older copy of both operations (lines 315-325 and 423-502). It has the same statements, so the same model covers it.

## Left out

- The Qt window is left out: widgets, colours, style sheets, and the 4-second message timeout. The window's settings are the `Request` value, and the status bar is a `ShowStatus` call carrying a tag instead of the message text.
- The `print` calls at lines 539, 548 and 584-588 are left out. They have no effect on the scene.
- The reference-node query at line 528 is left out. Its result is never used.
- The host is not modelled. `cmds.file`, `cmds.ls(..., assemblies=True)[0]` and the queries are the oracle `ids` and the `SourceRef` fields. The model does not check that the host returns fresh or distinct names.
- Host failures are not modelled. The code catches no exceptions, so a failing host call ends the run part-way. The model describes the run in which every host call succeeds. Like the code, it returns no value and raises no error of its own.
- `itemSelected` is a module-level list filled by the selection handler. It is the `sources` argument here.
- Clone.Clone: requires `copies >= 1`. The spin box's minimum is 1 (line 246). With 0 copies and a non-empty selection, `newItemsSorted` and `newItemsGrouped` are never assigned. With grouping on, the code then fails at line 579. With grouping off, it fails at the `print` at line 585.
- Offsets may be negative in the model. The spin boxes have minimum 0 (lines 233-241), so the model covers more inputs than the window allows.
- Placement.PositionIsProgression: holds for exact reals. The spin boxes hold IEEE doubles, and with doubles the two sides may differ by rounding. The same applies to Placement.ConsecutiveCopiesStep, Placement.CopiesDistinct and Placement.CopyOnAnchorIffZeroOffset; for the last, with doubles a copy far from the origin can land on its anchor under a small non-zero offset (`1e17 + 1.0` rounds to `1e17`).
- ItemFilter.LowerChar: lower-cases ASCII letters only. Python's `str.lower()` also folds non-ASCII letters, which the model does not cover.
- The source recomputes `newItemsSorted` and `newItemsGrouped` after every copy. Only the value from the last iteration is read, so the model computes it once (`Clone.Chunked`).

=== FILE: chunks.dfy ===
/** `divide_chunks(l, n)`: the sorted node list cut into consecutive
    slices `l[i:i + n]` for `i` in `range(0, len(l), n)`. */
module Chunks {

  function Min(a: nat, b: nat): nat
  {
    if a <= b then a else b
  }

  /** The chunks joined back together. */
  function Flatten<T>(cs: seq<seq<T>>): seq<T>
  {
    if |cs| == 0 then [] else cs[0] + Flatten(cs[1..])
  }

  /** What a cut of `l` into slices of `n` is: the pieces join back to `l`,
      none is empty or longer than `n`, and all but the last have exactly `n`. */
  ghost predicate IsChunking<T>(l: seq<T>, n: nat, cs: seq<seq<T>>)
  {
    && Flatten(cs) == l
    && (forall i :: 0 <= i < |cs| ==> 0 < |cs[i]| <= n)
    && (forall i :: 0 <= i < |cs| - 1 ==> |cs[i]| == n)
  }

  lemma MulAtLeast(a: int, n: int)
    requires a >= 1 && n >= 1
    ensures a * n >= n
  {
  }

  /** Euclidean division is determined by quotient and remainder. */
  lemma DivUnique(x: int, n: int, c: int, r: int)
    requires n >= 1 && 0 <= r < n && x == c * n + r
    ensures x / n == c
  {
    var q := x / n;
    if q > c {
      MulAtLeast(q - c, n);
    } else if q < c {
      MulAtLeast(c - q, n);
    }
  }

  lemma MulSucc(c: int, n: int)
    ensures (c + 1) * n == c * n + n
  {
  }

  /** `list(divide_chunks(l, n))`: Python clamps the slice `l[i:i + n]` at the
      end of `l`, so the last chunk holds what is left. */
  function DivideChunks<T>(l: seq<T>, n: nat): (r: seq<seq<T>>)
    requires n >= 1
    ensures |l| == 0 <==> |r| == 0
    decreases |l|
  {
    if |l| == 0 then []
    else [l[..Min(n, |l|)]] + DivideChunks(l[Min(n, |l|)..], n)
  }

  /** `DivideChunks` cuts `l` the one way `IsChunking` describes. */
  lemma {:induction false} DivideChunksIsChunking<T>(l: seq<T>, n: nat)
    requires n >= 1
    ensures IsChunking(l, n, DivideChunks(l, n))
    decreases |l|
  {
    if |l| > 0 {
      var m := Min(n, |l|);
      var r := DivideChunks(l, n);
      var tail := DivideChunks(l[m..], n);
      DivideChunksIsChunking(l[m..], n);
      assert r == [l[..m]] + tail;
      assert r[1..] == tail;
      assert Flatten(r) == l[..m] + Flatten(tail);
      assert l == l[..m] + l[m..];
      assert |l[m..]| > 0 ==> m == n;
    }
  }

  /** The number of chunks is the smallest `c` with `c * n >= |l|`. */
  lemma {:induction false} ChunkCountBounds<T>(l: seq<T>, n: nat)
    requires n >= 1
    ensures |l| <= |DivideChunks(l, n)| * n
    ensures |l| > 0 ==> (|DivideChunks(l, n)| - 1) * n < |l|
    decreases |l|
  {
    if |l| > 0 {
      var m := Min(n, |l|);
      var c := |DivideChunks(l[m..], n)|;
      ChunkCountBounds(l[m..], n);
      assert |DivideChunks(l, n)| == c + 1;
      MulSucc(c, n);
      if |l| <= n {
        assert |l[m..]| == 0 && c == 0;
      }
    }
  }

  /** `ceil(len(l) / n)` chunks. */
  lemma ChunkCount<T>(l: seq<T>, n: nat)
    requires n >= 1
    ensures |DivideChunks(l, n)| == (|l| + n - 1) / n
  {
    var c := |DivideChunks(l, n)|;
    ChunkCountBounds(l, n);
    if |l| == 0 {
      DivUnique(n - 1, n, 0, n - 1);
    } else {
      MulSucc(c - 1, n);
      DivUnique(|l| + n - 1, n, c, |l| + n - 1 - c * n);
    }
  }

  /** A list no longer than `n` gives at most one chunk. */
  lemma ShortListOneChunk<T>(l: seq<T>, n: nat)
    requires n >= 1
    ensures |l| <= n ==> |DivideChunks(l, n)| <= 1
  {
    if 0 < |l| <= n {
      assert l[Min(n, |l|)..] == [];
    }
  }

  lemma SliceOfSuffix<T>(l: seq<T>, n: nat, a: nat, b: nat)
    requires n <= |l| && a <= b <= |l| - n
    ensures l[n..][a..b] == l[n + a .. n + b]
  {
  }

  /** `i * n`, counted up one chunk at a time. The recursive contracts over
      sources use it in place of `*`: its one-step unfolding matches their
      recursion, where a product would need non-linear reasoning. */
  function Times(i: nat, n: nat): nat
  {
    if i == 0 then 0 else Times(i - 1, n) + n
  }

  /** One step of `Times`, for callers that hold `i` as a variable. */
  lemma TimesStep(i: nat, n: nat)
    ensures i == 0 ==> Times(i, n) == 0
    ensures i > 0 ==> Times(i, n) == Times(i - 1, n) + n
  {
  }

  lemma {:induction false} TimesIsProduct(i: nat, n: nat)
    ensures Times(i, n) == i * n
  {
    if i > 0 {
      TimesIsProduct(i - 1, n);
      MulSucc(i - 1, n);
    }
  }

  /** Past the first chunk, the chunks are those of what follows the first `n`. */
  lemma LaterChunk<T>(l: seq<T>, n: nat, i: nat)
    requires n >= 1
    requires 0 < i < |DivideChunks(l, n)|
    ensures n < |l|
    ensures i - 1 < |DivideChunks(l[n..], n)|
    ensures DivideChunks(l, n)[i] == DivideChunks(l[n..], n)[i - 1]
  {
    ShortListOneChunk(l, n);
    assert Min(n, |l|) == n;
  }

  /** Chunk `i` runs from `Times(i, n)` for `n` elements, clamped at the end. */
  lemma {:induction false} ChunkSlice<T>(l: seq<T>, n: nat, i: nat)
    requires n >= 1
    requires i < |DivideChunks(l, n)|
    ensures Times(i, n) <= |l|
    ensures DivideChunks(l, n)[i] == l[Times(i, n) .. Min(Times(i, n) + n, |l|)]
    decreases |l|
  {
    if i > 0 {
      LaterChunk(l, n, i);
      var rest := l[n..];
      ChunkSlice(rest, n, i - 1);
      var lo := Times(i - 1, n);
      var hi := Min(lo + n, |rest|);
      assert Times(i, n) == lo + n;
      assert Min(Times(i, n) + n, |l|) == hi + n;
      SliceOfSuffix(l, n, lo, hi);
      assert DivideChunks(l, n)[i] == rest[lo..hi] == l[n + lo .. n + hi];
    }
  }

  /** Chunk `i` is the slice `l[i*n : (i+1)*n]`, clamped at the end of `l`. */
  lemma ChunkAt<T>(l: seq<T>, n: nat, i: nat)
    requires n >= 1
    requires i < |DivideChunks(l, n)|
    ensures i * n <= |l|
    ensures DivideChunks(l, n)[i] == l[i * n .. Min((i + 1) * n, |l|)]
  {
    MulSucc(i, n);
    TimesIsProduct(i, n);
    ChunkSlice(l, n, i);
  }

  /** There is exactly one cut: any chunking of `l` by `n` is `DivideChunks(l, n)`. */
  lemma {:induction false} ChunkingUnique<T>(l: seq<T>, n: nat, cs: seq<seq<T>>)
    requires n >= 1
    requires IsChunking(l, n, cs)
    ensures cs == DivideChunks(l, n)
    decreases |cs|
  {
    if |cs| > 0 {
      var tail := cs[1..];
      assert cs == [cs[0]] + tail;
      assert l == cs[0] + Flatten(tail);
      assert IsChunking(Flatten(tail), n, tail);
      ChunkingUnique(Flatten(tail), n, tail);
      var m := Min(n, |l|);
      assert DivideChunks(l, n) == [l[..m]] + DivideChunks(l[m..], n);
      if |cs| == 1 {
        assert tail == [];
        assert Flatten(tail) == [];
        assert l == cs[0];
        assert m == |l|;
      } else {
        assert |Flatten(tail)| >= |tail[0]| by {
          assert Flatten(tail) == tail[0] + Flatten(tail[1..]);
        }
        assert m == n;
        assert l[..n] == cs[0] && l[n..] == Flatten(tail);
      }
    }
  }

  /** Example: five names in chunks of two give two pairs and a single. */
  lemma ExampleFiveByTwo()
    ensures DivideChunks(["a", "b", "c", "d", "e"], 2) == [["a", "b"], ["c", "d"], ["e"]]
  {
    var l: seq<string> := ["a", "b", "c", "d", "e"];
    var l2, l4: seq<string> := ["c", "d", "e"], ["e"];
    assert l[..2] == ["a", "b"] && l[2..] == l2;
    assert l2[..2] == ["c", "d"] && l2[2..] == l4;
    assert l4[..1] == ["e"] && l4[1..] == [];
    assert DivideChunks(l4, 2) == [["e"]] + DivideChunks([], 2);
    assert DivideChunks(l2, 2) == [["c", "d"]] + DivideChunks(l4, 2);
    assert DivideChunks(l, 2) == [["a", "b"]] + DivideChunks(l2, 2);
  }

  /** Four elements in chunks of two: two full pairs. */
  lemma {:induction false} FourByTwo<T>(w: T, x: T, y: T, z: T)
    ensures DivideChunks([w, x, y, z], 2) == [[w, x], [y, z]]
  {
    var l, l2: seq<T> := [w, x, y, z], [y, z];
    assert l[..2] == [w, x] && l[2..] == l2;
    assert l2[..2] == l2 && l2[2..] == [];
    assert DivideChunks(l2, 2) == [l2] + DivideChunks([], 2);
    assert DivideChunks(l, 2) == [[w, x]] + DivideChunks(l2, 2);
  }
}

=== FILE: clone.dfy ===
/** `clone()`: for every selected reference (outer loop) and every copy
    (inner loop) load the reference's file again under the derived namespace,
    match the new node's transform to the source and move it to the computed
    position; then sort the new nodes, cut them into chunks of the selection's
    size, optionally group each chunk, and report on the status bar.

    The host (Maya) is abstracted: the per-source queries (`referenceQuery`,
    `xform -q`) are the fields of `SourceRef`, the node ids the host hands back
    for each new reference are the oracle `ids`, consumed in order, and every
    host call that changes the scene is a `Command` in the returned trace. */
module Clone {
  import opened Namespace
  import opened Placement
  import opened KeySort
  import opened Chunks
  import opened Strings

  /** A selected reference, with what the host reports about it: its name,
      its file, and its translate as `xform -q -t` returns it (not in world
      space). */
  datatype SourceRef = SourceRef(name: string, filePath: string, anchor: Vec3)

  /** The "Grouping" check box and the group name typed beside it. */
  datatype Grouping = NoGrouping | GroupUnder(groupName: string)

  /** The settings read from the window when "Clone" is pressed. */
  datatype Request = Request(copies: nat, offset: Vec3, mode: NamespaceMode, grouping: Grouping)

  /** What the status bar reports: the empty-selection warning, or success
      naming the number of selected references. */
  datatype Status = NothingSelected | Cloned(sourceCount: nat)

  /** One host call that changes the scene or the window. */
  datatype Command =
    | CreateReference(filePath: string, namespace: string, node: string)
    | MatchTransform(node: string, source: string)
    | SetWorldPosition(node: string, position: Vec3)
    | Group(nodes: seq<string>, groupName: string)
    | ShowStatus(status: Status)

  /** The three calls for one copy: load, match transforms, move. */
  function CopyCommands(src: SourceRef, ns: string, offset: Vec3, node: string, n: nat): seq<Command>
  {
    [ CreateReference(src.filePath, ns, node),
      MatchTransform(node, src.name),
      SetWorldPosition(node, ComputePosition(src.anchor, offset, n)) ]
  }

  /** The inner loop for one source, from copy index `first` on; `nodes[k]` is
      the node the host returns for copy `first + k`. */
  function CopiesTrace(src: SourceRef, ns: string, offset: Vec3, nodes: seq<string>, first: nat): (t: seq<Command>)
    ensures |t| == 3 * |nodes|
  {
    if |nodes| == 0 then []
    else CopyCommands(src, ns, offset, nodes[0], first) + CopiesTrace(src, ns, offset, nodes[1..], first + 1)
  }

  /** The outer loop: each source gets its namespace once and then its
      `req.copies` consecutive nodes, copy index restarting at 0. */
  function CreationTrace(sources: seq<SourceRef>, req: Request, nodes: seq<string>): (t: seq<Command>)
    requires |nodes| == Times(|sources|, req.copies)
    ensures |t| == 3 * |nodes|
  {
    if |sources| == 0 then []
    else
      var ns := DeriveNamespace(sources[0].name, req.mode);
      CopiesTrace(sources[0], ns, req.offset, nodes[..req.copies], 0)
        + CreationTrace(sources[1..], req, nodes[req.copies..])
  }

  /** `for items in newItemsGrouped: cmds.group(items, name=groupName)`, when
      the check box is on. */
  function GroupTrace(chunks: seq<seq<string>>, grouping: Grouping): (t: seq<Command>)
    ensures |t| == if grouping.GroupUnder? then |chunks| else 0
  {
    match grouping
    case NoGrouping => []
    case GroupUnder(name) =>
      if |chunks| == 0 then [] else [Group(chunks[0], name)] + GroupTrace(chunks[1..], grouping)
  }

  /** The nodes created, in creation order: the first `|sources| * copies` ids. */
  function Created(sources: seq<SourceRef>, req: Request, ids: seq<string>): (r: seq<string>)
    requires |ids| >= |sources| * req.copies
    ensures |r| == |sources| * req.copies
    ensures |r| == Times(|sources|, req.copies)
    ensures r <= ids
  {
    TimesIsProduct(|sources|, req.copies);
    ids[..|sources| * req.copies]
  }

  /** `newItemsGrouped`: the created nodes sorted by key and cut into chunks of
      the selection's size. The source recomputes it after every copy; only
      its last value is used, which is this one. */
  function Chunked(sources: seq<SourceRef>, req: Request, ids: seq<string>): seq<seq<string>>
    requires |sources| >= 1
    requires |ids| >= |sources| * req.copies
  {
    DivideChunks(SortByKey(Created(sources, req, ids)), |sources|)
  }

  /** The whole `clone()` run as the trace of host calls it makes. */
  function Clone(sources: seq<SourceRef>, req: Request, ids: seq<string>): (t: seq<Command>)
    requires req.copies >= 1
    requires |ids| >= |sources| * req.copies
    ensures |t| >= 1 && t[|t| - 1].ShowStatus?
  {
    if |sources| == 0 then [ShowStatus(NothingSelected)]
    else
      CreationTrace(sources, req, Created(sources, req, ids))
        + GroupTrace(Chunked(sources, req, ids), req.grouping)
        + [ShowStatus(Cloned(|sources|))]
  }

  // ----- Observing a trace -----

  /** The nodes of the `CreateReference` calls in `t`, in order. */
  function CreatedNodes(t: seq<Command>): seq<string>
  {
    if |t| == 0 then []
    else (if t[0].CreateReference? then [t[0].node] else []) + CreatedNodes(t[1..])
  }

  /** The `Group` calls in `t`, in order. */
  function GroupCalls(t: seq<Command>): seq<Command>
  {
    if |t| == 0 then [] else (if t[0].Group? then [t[0]] else []) + GroupCalls(t[1..])
  }

  lemma {:induction false} ObserveAppend(a: seq<Command>, b: seq<Command>)
    ensures CreatedNodes(a + b) == CreatedNodes(a) + CreatedNodes(b)
    ensures GroupCalls(a + b) == GroupCalls(a) + GroupCalls(b)
  {
    if |a| > 0 {
      assert (a + b)[0] == a[0];
      assert (a + b)[1..] == a[1..] + b;
      ObserveAppend(a[1..], b);
    } else {
      assert a + b == b;
    }
  }

  lemma ObserveOne(c: Command)
    ensures CreatedNodes([c]) == if c.CreateReference? then [c.node] else []
    ensures GroupCalls([c]) == if c.Group? then [c] else []
  {
    assert [c][1..] == [];
  }

  /** A copy's three calls create its node and group nothing. */
  lemma CopyCommandsObserved(src: SourceRef, ns: string, offset: Vec3, node: string, n: nat)
    ensures CreatedNodes(CopyCommands(src, ns, offset, node, n)) == [node]
    ensures GroupCalls(CopyCommands(src, ns, offset, node, n)) == []
  {
    var cs := CopyCommands(src, ns, offset, node, n);
    assert cs == [cs[0]] + [cs[1]] + [cs[2]];
    ObserveOne(cs[0]);
    ObserveOne(cs[1]);
    ObserveOne(cs[2]);
    ObserveAppend([cs[0]], [cs[1]]);
    ObserveAppend([cs[0]] + [cs[1]], [cs[2]]);
  }

  lemma {:induction false} CopiesTraceObserved(src: SourceRef, ns: string, offset: Vec3, nodes: seq<string>, first: nat)
    ensures CreatedNodes(CopiesTrace(src, ns, offset, nodes, first)) == nodes
    ensures GroupCalls(CopiesTrace(src, ns, offset, nodes, first)) == []
  {
    if |nodes| > 0 {
      var head := CopyCommands(src, ns, offset, nodes[0], first);
      var tail := CopiesTrace(src, ns, offset, nodes[1..], first + 1);
      CopiesTraceObserved(src, ns, offset, nodes[1..], first + 1);
      ObserveAppend(head, tail);
      CopyCommandsObserved(src, ns, offset, nodes[0], first);
      assert nodes == [nodes[0]] + nodes[1..];
    }
  }

  /** The creation phase creates exactly `nodes`, in order, and groups nothing. */
  lemma {:induction false} CreationTraceObserved(sources: seq<SourceRef>, req: Request, nodes: seq<string>)
    requires |nodes| == Times(|sources|, req.copies)
    ensures CreatedNodes(CreationTrace(sources, req, nodes)) == nodes
    ensures GroupCalls(CreationTrace(sources, req, nodes)) == []
  {
    if |sources| > 0 {
      var ns := DeriveNamespace(sources[0].name, req.mode);
      var head := CopiesTrace(sources[0], ns, req.offset, nodes[..req.copies], 0);
      CopiesTraceObserved(sources[0], ns, req.offset, nodes[..req.copies], 0);
      CreationTraceObserved(sources[1..], req, nodes[req.copies..]);
      ObserveAppend(head, CreationTrace(sources[1..], req, nodes[req.copies..]));
      assert nodes == nodes[..req.copies] + nodes[req.copies..];
    }
  }

  /** The group phase issues one `Group` call per chunk, in chunk order, all
      with the same name, and creates nothing. */
  lemma {:induction false} GroupTraceObserved(chunks: seq<seq<string>>, grouping: Grouping)
    ensures CreatedNodes(GroupTrace(chunks, grouping)) == []
    ensures grouping.NoGrouping? ==> GroupCalls(GroupTrace(chunks, grouping)) == []
    ensures grouping.GroupUnder? ==>
      && |GroupCalls(GroupTrace(chunks, grouping))| == |chunks|
      && forall i :: 0 <= i < |chunks| ==>
           GroupCalls(GroupTrace(chunks, grouping))[i] == Group(chunks[i], grouping.groupName)
  {
    if grouping.GroupUnder? && |chunks| > 0 {
      var head := [Group(chunks[0], grouping.groupName)];
      GroupTraceObserved(chunks[1..], grouping);
      ObserveAppend(head, GroupTrace(chunks[1..], grouping));
    }
  }

  // ----- Properties of a run -----

  /** With nothing selected the run only reports: nothing is created, moved
      or grouped. */
  lemma EmptySelectionOnlyReports(req: Request, ids: seq<string>)
    requires req.copies >= 1
    ensures Clone([], req, ids) == [ShowStatus(NothingSelected)]
    ensures CreatedNodes(Clone([], req, ids)) == []
    ensures GroupCalls(Clone([], req, ids)) == []
  {
  }

  /** A non-empty run is its creation phase, its group phase, then the report. */
  lemma ClonePhases(sources: seq<SourceRef>, req: Request, ids: seq<string>)
    requires req.copies >= 1
    requires |sources| >= 1
    requires |ids| >= |sources| * req.copies
    ensures Clone(sources, req, ids)
         == CreationTrace(sources, req, Created(sources, req, ids))
            + GroupTrace(Chunked(sources, req, ids), req.grouping)
            + [ShowStatus(Cloned(|sources|))]
  {
  }

  /** Observing three phases: the first creates, the second groups, the last
      call does neither. */
  lemma ObservePhases(a: seq<Command>, b: seq<Command>, c: Command)
    requires GroupCalls(a) == [] && CreatedNodes(b) == []
    requires !c.CreateReference? && !c.Group?
    ensures CreatedNodes(a + b + [c]) == CreatedNodes(a)
    ensures GroupCalls(a + b + [c]) == GroupCalls(b)
  {
    ObserveAppend(a, b);
    ObserveAppend(a + b, [c]);
    ObserveOne(c);
  }

  /** The nodes a run creates are the created ones, and its group calls are
      those of the group phase. */
  lemma CloneObserved(sources: seq<SourceRef>, req: Request, ids: seq<string>)
    requires req.copies >= 1
    requires |sources| >= 1
    requires |ids| >= |sources| * req.copies
    ensures CreatedNodes(Clone(sources, req, ids)) == Created(sources, req, ids)
    ensures GroupCalls(Clone(sources, req, ids)) == GroupCalls(GroupTrace(Chunked(sources, req, ids), req.grouping))
  {
    var created := Created(sources, req, ids);
    var b := GroupTrace(Chunked(sources, req, ids), req.grouping);
    ClonePhases(sources, req, ids);
    CreationTraceObserved(sources, req, created);
    GroupTraceObserved(Chunked(sources, req, ids), req.grouping);
    ObservePhases(CreationTrace(sources, req, created), b, ShowStatus(Cloned(|sources|)));
  }

  /** A run creates exactly the first `|sources| * copies` oracle nodes, in
      order, so `len(itemSelected) * copies` references; it groups the sorted
      chunks one call each under the one group name, or not at all; and it
      ends by reporting success for `|sources|` references. It makes no other
      call: three per copy, one per group, and the report. */
  lemma CloneEffects(sources: seq<SourceRef>, req: Request, ids: seq<string>)
    requires req.copies >= 1
    requires |sources| >= 1
    requires |ids| >= |sources| * req.copies
    ensures CreatedNodes(Clone(sources, req, ids)) == Created(sources, req, ids)
    ensures |CreatedNodes(Clone(sources, req, ids))| == |sources| * req.copies
    ensures req.grouping.NoGrouping? ==> GroupCalls(Clone(sources, req, ids)) == []
    ensures req.grouping.GroupUnder? ==>
      && |GroupCalls(Clone(sources, req, ids))| == |Chunked(sources, req, ids)|
      && forall i :: 0 <= i < |Chunked(sources, req, ids)| ==>
           GroupCalls(Clone(sources, req, ids))[i]
             == Group(Chunked(sources, req, ids)[i], req.grouping.groupName)
    ensures Clone(sources, req, ids)[|Clone(sources, req, ids)| - 1] == ShowStatus(Cloned(|sources|))
    ensures |Clone(sources, req, ids)|
         == 3 * (|sources| * req.copies)
            + (if req.grouping.GroupUnder? then |Chunked(sources, req, ids)| else 0) + 1
  {
    CloneObserved(sources, req, ids);
    GroupTraceObserved(Chunked(sources, req, ids), req.grouping);
    TimesIsProduct(|sources|, req.copies);
    ClonePhases(sources, req, ids);
  }

  /** The chunks that get grouped hold every created node exactly once, in
      key order, one chunk per `|sources|` nodes. */
  lemma ChunkedCoversCreated(sources: seq<SourceRef>, req: Request, ids: seq<string>)
    requires |sources| >= 1
    requires |ids| >= |sources| * req.copies
    ensures Flatten(Chunked(sources, req, ids)) == SortByKey(Created(sources, req, ids))
    ensures multiset(Flatten(Chunked(sources, req, ids))) == multiset(Created(sources, req, ids))
    ensures SortedByKey(Flatten(Chunked(sources, req, ids)))
    ensures forall i :: 0 <= i < |Chunked(sources, req, ids)| ==> 0 < |Chunked(sources, req, ids)[i]| <= |sources|
    ensures forall i :: 0 <= i < |Chunked(sources, req, ids)| - 1 ==> |Chunked(sources, req, ids)[i]| == |sources|
  {
    SortByKeyIsStableSort(Created(sources, req, ids));
    DivideChunksIsChunking(SortByKey(Created(sources, req, ids)), |sources|);
  }

  /** Calls `3 * k` to `3 * k + 2` of `t` are the three calls of `block`. */
  ghost predicate BlockAt(t: seq<Command>, k: nat, block: seq<Command>)
  {
    && |block| == 3
    && 3 * k + 2 < |t|
    && t[3 * k] == block[0] && t[3 * k + 1] == block[1] && t[3 * k + 2] == block[2]
  }

  lemma BlockAtAppendLeft(a: seq<Command>, b: seq<Command>, t: seq<Command>, k: nat, block: seq<Command>)
    requires t == a + b
    requires BlockAt(a, k, block)
    ensures BlockAt(t, k, block)
  {
  }

  lemma BlockAtAppendRight(a: seq<Command>, b: seq<Command>, t: seq<Command>, c: nat, k: nat, block: seq<Command>)
    requires t == a + b && |a| == 3 * c
    requires BlockAt(b, k, block)
    ensures BlockAt(t, c + k, block)
  {
    assert 3 * (c + k) == |a| + 3 * k;
  }

  /** Copy `n` of the copies of one source that start at copy index `first`
      is the `n`-th block of three calls. */
  lemma {:induction false} CopiesTraceAt(src: SourceRef, ns: string, offset: Vec3, nodes: seq<string>, first: nat, n: nat, node: string, block: seq<Command>)
    requires n < |nodes| && node == nodes[n]
    requires block == CopyCommands(src, ns, offset, node, first + n)
    ensures BlockAt(CopiesTrace(src, ns, offset, nodes, first), n, block)
  {
    var t := CopiesTrace(src, ns, offset, nodes, first);
    var head := CopyCommands(src, ns, offset, nodes[0], first);
    var tail := CopiesTrace(src, ns, offset, nodes[1..], first + 1);
    assert t == head + tail;
    if n == 0 {
      BlockAtAppendLeft(head, tail, t, 0, head);
    } else {
      assert nodes[1..][n - 1] == nodes[n];
      CopiesTraceAt(src, ns, offset, nodes[1..], first + 1, n - 1, node, block);
      BlockAtAppendRight(head, tail, t, 1, n - 1, block);
    }
  }

  /** The creation phase is the first source's copies followed by the rest. */
  lemma CreationTraceSplit(sources: seq<SourceRef>, req: Request, nodes: seq<string>)
    requires |nodes| == Times(|sources|, req.copies)
    requires |sources| >= 1
    ensures req.copies <= |nodes|
    ensures |nodes[req.copies..]| == Times(|sources[1..]|, req.copies)
    ensures CreationTrace(sources, req, nodes)
         == CopiesTrace(sources[0], DeriveNamespace(sources[0].name, req.mode), req.offset, nodes[..req.copies], 0)
            + CreationTrace(sources[1..], req, nodes[req.copies..])
  {
  }

  /** The calls for copy `n` of source `s`: load under the source's
      namespace, match to the source, move to copy `n`'s position. */
  function CopyOf(sources: seq<SourceRef>, req: Request, s: nat, node: string, n: nat): seq<Command>
    requires s < |sources|
  {
    CopyCommands(sources[s], DeriveNamespace(sources[s].name, req.mode), req.offset, node, n)
  }

  /** A block of the copies that open a trace is a block of the whole trace. */
  lemma HeadBlock(t: seq<Command>, head: seq<Command>, tail: seq<Command>, src: SourceRef, ns: string,
                  offset: Vec3, nodes: seq<string>, n: nat, node: string, block: seq<Command>)
    requires t == head + tail && head == CopiesTrace(src, ns, offset, nodes, 0)
    requires n < |nodes| && node == nodes[n]
    requires block == CopyCommands(src, ns, offset, node, 0 + n)
    ensures BlockAt(t, n, block)
  {
    CopiesTraceAt(src, ns, offset, nodes, 0, n, node, block);
    BlockAtAppendLeft(head, tail, t, n, block);
  }

  /** The first source's copies open the creation phase. */
  lemma CreationHead(sources: seq<SourceRef>, req: Request, nodes: seq<string>, t: seq<Command>, n: nat)
    requires |nodes| == Times(|sources|, req.copies)
    requires |sources| >= 1 && n < req.copies
    requires t == CreationTrace(sources, req, nodes)
    ensures n < |nodes|
    ensures BlockAt(t, n, CopyOf(sources, req, 0, nodes[n], n))
  {
    var c := req.copies;
    CreationTraceSplit(sources, req, nodes);
    var ns := DeriveNamespace(sources[0].name, req.mode);
    var node := nodes[..c][n];
    var block := CopyCommands(sources[0], ns, req.offset, node, 0 + n);
    HeadBlock(t, CopiesTrace(sources[0], ns, req.offset, nodes[..c], 0),
              CreationTrace(sources[1..], req, nodes[c..]), sources[0], ns, req.offset, nodes[..c], n, node, block);
    assert node == nodes[n];
    assert block == CopyOf(sources, req, 0, nodes[n], n);
  }

  /** After the first source's `copies` creations come the other sources'. */
  lemma CreationTail(sources: seq<SourceRef>, req: Request, nodes: seq<string>, t: seq<Command>,
                     rest: seq<Command>, j: nat, block: seq<Command>)
    requires |nodes| == Times(|sources|, req.copies)
    requires |sources| >= 1
    requires t == CreationTrace(sources, req, nodes)
    requires |nodes[req.copies..]| == Times(|sources[1..]|, req.copies)
    requires rest == CreationTrace(sources[1..], req, nodes[req.copies..])
    requires BlockAt(rest, j, block)
    ensures BlockAt(t, req.copies + j, block)
  {
    var c := req.copies;
    CreationTraceSplit(sources, req, nodes);
    var head := CopiesTrace(sources[0], DeriveNamespace(sources[0].name, req.mode), req.offset, nodes[..c], 0);
    BlockAtAppendRight(head, rest, t, c, j, block);
  }

  /** Copy `n` of source `s` is creation number `k = Times(s, copies) + n`
      (that is `s * copies + n`): the source-outer, copy-inner order. */
  lemma {:induction false} CreationTraceAt(sources: seq<SourceRef>, req: Request, nodes: seq<string>,
                                           t: seq<Command>, s: nat, n: nat, k: nat)
    requires |nodes| == Times(|sources|, req.copies)
    requires s < |sources| && n < req.copies
    requires t == CreationTrace(sources, req, nodes)
    requires k == Times(s, req.copies) + n
    ensures k < |nodes|
    ensures BlockAt(t, k, CopyOf(sources, req, s, nodes[k], n))
  {
    var c := req.copies;
    TimesStep(s, c);
    if s == 0 {
      CreationHead(sources, req, nodes, t, n);
    } else {
      var j := k - c;
      var rest := nodes[c..];
      assert |rest| == Times(|sources[1..]|, c);
      var restTrace := CreationTrace(sources[1..], req, rest);
      CreationTraceAt(sources[1..], req, rest, restTrace, s - 1, n, j);
      assert sources[1..][s - 1] == sources[s];
      assert rest[j] == nodes[k];
      var block := CopyOf(sources, req, s, nodes[k], n);
      assert CopyOf(sources[1..], req, s - 1, rest[j], n) == block;
      CreationTail(sources, req, nodes, t, restTrace, j, block);
    }
  }

  /** Creation number `k = s * copies + n` of a run loads source `s`'s file
      under its namespace, matches the new node to source `s`, then moves it
      to copy `n`'s position. */
  lemma CloneCreationOrder(sources: seq<SourceRef>, req: Request, ids: seq<string>, s: nat, n: nat, k: nat)
    requires req.copies >= 1
    requires |ids| >= |sources| * req.copies
    requires s < |sources| && n < req.copies
    requires k == s * req.copies + n
    ensures k < |ids|
    ensures 3 * k + 2 < |Clone(sources, req, ids)|
    ensures Clone(sources, req, ids)[3 * k]
      == CreateReference(sources[s].filePath, DeriveNamespace(sources[s].name, req.mode), ids[k])
    ensures Clone(sources, req, ids)[3 * k + 1] == MatchTransform(ids[k], sources[s].name)
    ensures Clone(sources, req, ids)[3 * k + 2]
      == SetWorldPosition(ids[k], ComputePosition(sources[s].anchor, req.offset, n))
  {
    var created := Created(sources, req, ids);
    var a := CreationTrace(sources, req, created);
    var rest := GroupTrace(Chunked(sources, req, ids), req.grouping) + [ShowStatus(Cloned(|sources|))];
    TimesIsProduct(s, req.copies);
    CreationTraceAt(sources, req, created, a, s, n, k);
    assert created[k] == ids[k];
    ClonePhases(sources, req, ids);
    BlockAtAppendLeft(a, rest, Clone(sources, req, ids), k, CopyOf(sources, req, s, ids[k], n));
  }

  /** Example: two sources, two copies each, grouped. The host hands back
      `a_c0001:root`, `a_c0002:root`, then `b_c0001:root`, `b_c0002:root`;
      the reversed key puts the copy digit first, so each group holds one
      copy of every source. */
  lemma ExampleGroupsCopyByCopy()
    ensures Chunked([SourceRef("a:root", "a.ma", Zero), SourceRef("b:root", "b.ma", Zero)],
                    Request(2, Zero, FromSelection, GroupUnder("set")),
                    [A1, A2, B1, B2])
         == [[A1, B1], [A2, B2]]
  {
    var sources := [SourceRef("a:root", "a.ma", Zero), SourceRef("b:root", "b.ma", Zero)];
    var req := Request(2, Zero, FromSelection, GroupUnder("set"));
    var ids := [A1, A2, B1, B2];
    assert ids[..4] == ids;
    ExampleSortCopyByCopy();
    FourByTwo(A1, B1, A2, B2);
  }
}

=== FILE: itemfilter.dfy ===
/** The search box over the node list: a case-insensitive substring test
    that hides or shows each row. */
module ItemFilter {

  /** ASCII lower-casing of one character (what `str.lower()` does on ASCII). */
  function LowerChar(c: char): char
  {
    if 'A' <= c <= 'Z' then (c as int + 32) as char else c
  }

  function Lower(s: string): (r: string)
    ensures |r| == |s|
    ensures forall i :: 0 <= i < |s| ==> r[i] == LowerChar(s[i])
  {
    if |s| == 0 then [] else [LowerChar(s[0])] + Lower(s[1..])
  }

  lemma LowerIdempotent(s: string)
    ensures Lower(Lower(s)) == Lower(s)
  {
  }

  /** `needle` occurs in `hay` starting at index `i`. */
  ghost predicate OccursAt(hay: string, needle: string, i: int)
  {
    0 <= i <= |hay| - |needle| && hay[i..i + |needle|] == needle
  }

  /** `needle` occurs somewhere in `hay`. */
  ghost predicate Occurs(hay: string, needle: string)
  {
    exists i :: OccursAt(hay, needle, i)
  }

  /** Python's `needle in hay` on strings, scanning start positions left to right. */
  predicate Contains(hay: string, needle: string)
  {
    needle <= hay || (|hay| > 0 && Contains(hay[1..], needle))
  }

  /** An occurrence in `hay[1..]` is one in `hay`, one position later. */
  lemma OccursShift(hay: string, needle: string, i: nat)
    requires |hay| > 0
    ensures OccursAt(hay[1..], needle, i) <==> OccursAt(hay, needle, i + 1)
  {
    if i + |needle| <= |hay[1..]| {
      assert hay[1..][i..i + |needle|] == hay[i + 1..i + 1 + |needle|];
    }
  }

  /** The scan finds `needle` exactly when it occurs somewhere in `hay`. */
  lemma {:induction false} ContainsIff(hay: string, needle: string)
    ensures Contains(hay, needle) <==> Occurs(hay, needle)
  {
    if |hay| > 0 {
      ContainsIff(hay[1..], needle);
    }
    if Contains(hay, needle) {
      if needle <= hay {
        assert OccursAt(hay, needle, 0);
      } else {
        var i :| OccursAt(hay[1..], needle, i);
        OccursShift(hay, needle, i);
      }
    }
    if Occurs(hay, needle) {
      var i :| OccursAt(hay, needle, i);
      if i == 0 {
        assert needle <= hay;
      } else {
        OccursShift(hay, needle, i - 1);
      }
    }
  }

  /** A row of the list widget: its text and whether it is hidden. */
  datatype Row = Row(text: string, hidden: bool)

  /** Whether `rows` and `r` hold the same texts in the same order. */
  ghost predicate SameTexts(rows: seq<Row>, r: seq<Row>)
  {
    |r| == |rows| && forall i :: 0 <= i < |rows| ==> r[i].text == rows[i].text
  }

  /** The empty-filter branch: every row is shown. */
  function ShowAll(rows: seq<Row>): (r: seq<Row>)
    ensures SameTexts(rows, r)
    ensures forall i :: 0 <= i < |r| ==> !r[i].hidden
  {
    if |rows| == 0 then [] else [rows[0].(hidden := false)] + ShowAll(rows[1..])
  }

  /** The non-empty branch: a row is hidden when the lower-cased filter `f`
      is not in its lower-cased text. */
  function HideUnmatched(rows: seq<Row>, f: string): (r: seq<Row>)
    ensures SameTexts(rows, r)
    ensures forall i :: 0 <= i < |r| ==> (r[i].hidden <==> !Contains(Lower(rows[i].text), f))
  {
    if |rows| == 0 then []
    else [rows[0].(hidden := !Contains(Lower(rows[0].text), f))] + HideUnmatched(rows[1..], f)
  }

  /** `itemFilter`: only the hidden flags change, and a row ends up hidden
      exactly when the lower-cased filter text occurs nowhere in its
      lower-cased text (so an empty filter shows every row). */
  function ItemFilter(rows: seq<Row>, filterText: string): (r: seq<Row>)
    ensures SameTexts(rows, r)
    ensures forall i :: 0 <= i < |r| ==>
      (r[i].hidden <==> !Occurs(Lower(rows[i].text), Lower(filterText)))
  {
    var f := Lower(filterText);
    if |f| == 0 then
      assert forall i :: 0 <= i < |rows| ==> OccursAt(Lower(rows[i].text), f, 0);
      ShowAll(rows)
    else
      var r := HideUnmatched(rows, f);
      assert forall i :: 0 <= i < |r| ==>
          (Contains(Lower(rows[i].text), f) <==> Occurs(Lower(rows[i].text), f)) by {
        forall i | 0 <= i < |r| {
          ContainsIff(Lower(rows[i].text), f);
        }
      }
      r
  }

  /** Upper- or lower-case filter text gives the same rows. */
  lemma FilterIgnoresCase(rows: seq<Row>, filterText: string)
    ensures ItemFilter(rows, filterText) == ItemFilter(rows, Lower(filterText))
  {
    LowerIdempotent(filterText);
  }

  lemma {:induction false} OccursTransitive(hay: string, mid: string, needle: string, i: int, j: int)
    requires OccursAt(hay, mid, i) && OccursAt(mid, needle, j)
    ensures OccursAt(hay, needle, i + j)
  {
    assert mid == hay[i..i + |mid|];
    forall k | 0 <= k < |needle|
      ensures hay[i + j + k] == needle[k]
    {
      assert needle[k] == mid[j + k];
    }
  }

  /** Typing more of the filter only hides more: when the shorter filter
      occurs in the longer one, a row the longer one shows stays shown. */
  lemma NarrowingOnlyHides(rows: seq<Row>, shorter: string, longer: string)
    requires Occurs(Lower(longer), Lower(shorter))
    ensures forall i :: 0 <= i < |rows| && !ItemFilter(rows, longer)[i].hidden ==>
      !ItemFilter(rows, shorter)[i].hidden
  {
    var j :| OccursAt(Lower(longer), Lower(shorter), j);
    forall i | 0 <= i < |rows| && !ItemFilter(rows, longer)[i].hidden
      ensures !ItemFilter(rows, shorter)[i].hidden
    {
      var h := Lower(rows[i].text);
      var k :| OccursAt(h, Lower(longer), k);
      OccursTransitive(h, Lower(longer), Lower(shorter), k, j);
    }
  }
}

=== FILE: keysort.dfy ===
/** The ordering of the created nodes before they are chunked:
    `sorted(newItems, key=lambda x: ''.join(reversed(x.split(':')[0])))`.
    Python's `sorted` is stable and compares keys with `<` only; `SortByKey`
    is a stable insertion sort that does the same. */
module KeySort {
  import opened Strings

  /** The sort key of a node name: its base namespace, reversed. */
  function SortKey(name: string): string
  {
    Reverse(BaseNamespace(name))
  }

  /** Non-decreasing by key: no later element's key is below an earlier one's. */
  ghost predicate SortedByKey(s: seq<string>)
  {
    forall i, j :: 0 <= i < j < |s| ==> LexLe(SortKey(s[i]), SortKey(s[j]))
  }

  /** `[x]` when `x` has key `k`, else nothing. */
  function KeepIf(x: string, k: string): seq<string>
  {
    if SortKey(x) == k then [x] else []
  }

  /** The elements of `s` whose key is `k`, in their order in `s`. A sort is
      stable exactly when it keeps every such subsequence unchanged. */
  function WithKey(s: seq<string>, k: string): seq<string>
  {
    if |s| == 0 then [] else KeepIf(s[0], k) + WithKey(s[1..], k)
  }

  /** Stable: every key's subsequence is the same in `r` as in `s`. */
  ghost predicate SameKeyOrder(r: seq<string>, s: seq<string>)
  {
    forall k :: WithKey(r, k) == WithKey(s, k)
  }

  lemma WithKeyCons(x: string, t: seq<string>, k: string)
    ensures WithKey([x] + t, k) == KeepIf(x, k) + WithKey(t, k)
  {
    assert ([x] + t)[0] == x;
    assert ([x] + t)[1..] == t;
  }

  /** `x` is kept by `WithKey(s, k)` exactly when it is in `s` with key `k`. */
  lemma {:induction false} WithKeyMembers(s: seq<string>, k: string, x: string)
    ensures x in WithKey(s, k) <==> x in s && SortKey(x) == k
  {
    if |s| > 0 {
      WithKeyMembers(s[1..], k, x);
      assert s == [s[0]] + s[1..];
    }
  }

  /** A non-empty sequence keeps its first element under that element's key. */
  lemma FirstIsKept(s: seq<string>)
    ensures |s| > 0 ==> WithKey(s, SortKey(s[0])) != []
  {
  }

  /** Inserts `x` in front of the first element whose key is not below `x`'s. */
  function Insert(x: string, t: seq<string>): (r: seq<string>)
    ensures multiset(r) == multiset([x] + t)
    ensures |r| == |t| + 1
  {
    if |t| == 0 || !LexLess(SortKey(t[0]), SortKey(x)) then [x] + t
    else
      assert t == [t[0]] + t[1..];
      [t[0]] + Insert(x, t[1..])
  }

  /** `x` goes in front of a head whose key is not below its own. */
  lemma InsertBefore(x: string, y: string, t: seq<string>)
    requires !LexLess(SortKey(y), SortKey(x))
    ensures Insert(x, [y] + t) == [x, y] + t
  {
  }

  /** `x` moves past a head whose key is below its own. */
  lemma InsertPast(x: string, y: string, t: seq<string>)
    requires LexLess(SortKey(y), SortKey(x))
    ensures Insert(x, [y] + t) == [y] + Insert(x, t)
  {
    assert ([y] + t)[1..] == t;
  }

  lemma {:induction false} InsertSorted(x: string, t: seq<string>)
    requires SortedByKey(t)
    ensures SortedByKey(Insert(x, t))
  {
    var r := Insert(x, t);
    if |t| == 0 || !LexLess(SortKey(t[0]), SortKey(x)) {
      forall i, j | 0 <= i < j < |r|
        ensures LexLe(SortKey(r[i]), SortKey(r[j]))
      {
        if i == 0 {
          LexLeTotalOrder(SortKey(x), SortKey(t[0]), SortKey(t[j - 1]));
        }
      }
    } else {
      var rest := Insert(x, t[1..]);
      InsertSorted(x, t[1..]);
      assert r == [t[0]] + rest;
      LexLeTotalOrder(SortKey(x), SortKey(t[0]), SortKey(t[0]));
      assert LexLe(SortKey(t[0]), SortKey(x));
      forall i, j | 0 <= i < j < |r|
        ensures LexLe(SortKey(r[i]), SortKey(r[j]))
      {
        if i == 0 {
          var y := rest[j - 1];
          assert y in multiset([x] + t[1..]);
          if y != x {
            assert y in t[1..];
            var m :| 0 <= m < |t[1..]| && t[1..][m] == y;
            assert t[m + 1] == y;
          }
        }
      }
    }
  }

  /** Elements with different keys can trade places without changing any
      key's subsequence. */
  lemma SwapKept(x: string, y: string, w: seq<string>, k: string)
    requires SortKey(x) != SortKey(y)
    ensures KeepIf(y, k) + (KeepIf(x, k) + w) == KeepIf(x, k) + (KeepIf(y, k) + w)
  {
    if SortKey(x) == k {
      assert KeepIf(y, k) == [];
    } else {
      assert KeepIf(x, k) == [];
    }
  }

  lemma {:induction false} InsertStableAt(x: string, t: seq<string>, k: string)
    ensures WithKey(Insert(x, t), k) == WithKey([x] + t, k)
  {
    if |t| > 0 && LexLess(SortKey(t[0]), SortKey(x)) {
      var y, u := t[0], t[1..];
      var rest := Insert(x, u);
      assert t == [y] + u;
      InsertPast(x, y, u);
      InsertStableAt(x, u, k);
      LexLessIrreflexive(SortKey(x));
      WithKeyCons(y, rest, k);
      WithKeyCons(x, u, k);
      WithKeyCons(y, u, k);
      WithKeyCons(x, t, k);
      SwapKept(x, y, WithKey(u, k), k);
    }
  }

  lemma InsertStable(x: string, t: seq<string>)
    ensures SameKeyOrder(Insert(x, t), [x] + t)
  {
    forall k
      ensures WithKey(Insert(x, t), k) == WithKey([x] + t, k)
    {
      InsertStableAt(x, t, k);
    }
  }

  /** The stable sort by `SortKey`: each element is inserted, back to front,
      into the sorted rest. */
  function SortByKey(s: seq<string>): (r: seq<string>)
    ensures |r| == |s|
  {
    if |s| == 0 then [] else Insert(s[0], SortByKey(s[1..]))
  }

  /** `SortByKey` rearranges `s`, orders it by key, and keeps equal keys in
      their original order. */
  lemma {:induction false} SortByKeyIsStableSort(s: seq<string>)
    ensures multiset(SortByKey(s)) == multiset(s)
    ensures SortedByKey(SortByKey(s))
    ensures SameKeyOrder(SortByKey(s), s)
  {
    if |s| > 0 {
      var rest := SortByKey(s[1..]);
      SortByKeyIsStableSort(s[1..]);
      InsertSorted(s[0], rest);
      InsertStable(s[0], rest);
      assert s == [s[0]] + s[1..];
      forall k
        ensures WithKey([s[0]] + rest, k) == WithKey(s, k)
      {
        WithKeyCons(s[0], rest, k);
        WithKeyCons(s[0], s[1..], k);
      }
    }
  }

  /** Two sorted, stable rearrangements of each other start alike: the
      smallest key comes first in both, and among its holders the same one. */
  lemma SameHead(a: seq<string>, b: seq<string>)
    requires SortedByKey(a) && SortedByKey(b)
    requires SameKeyOrder(a, b)
    requires |a| > 0 && |b| > 0
    ensures a[0] == b[0]
  {
    var ka, kb := SortKey(a[0]), SortKey(b[0]);
    WithKeyMembers(b, kb, b[0]);
    WithKeyMembers(a, kb, b[0]);
    WithKeyMembers(a, ka, a[0]);
    WithKeyMembers(b, ka, a[0]);
    var i :| 0 <= i < |a| && a[i] == b[0];
    var j :| 0 <= j < |b| && b[j] == a[0];
    LexLeTotalOrder(ka, kb, ka);
    if i > 0 { assert LexLe(ka, kb); }
    if j > 0 { assert LexLe(kb, ka); }
    assert ka == kb;
    assert a == [a[0]] + a[1..] && b == [b[0]] + b[1..];
    WithKeyCons(a[0], a[1..], ka);
    WithKeyCons(b[0], b[1..], ka);
    assert WithKey(a, ka)[0] == a[0] && WithKey(b, ka)[0] == b[0];
  }

  /** Dropping an equal head keeps every key's subsequence equal. */
  lemma SameTailOrder(a: seq<string>, b: seq<string>)
    requires SameKeyOrder(a, b)
    requires |a| > 0 && |b| > 0 && a[0] == b[0]
    ensures SameKeyOrder(a[1..], b[1..])
  {
    assert a == [a[0]] + a[1..] && b == [b[0]] + b[1..];
    forall k
      ensures WithKey(a[1..], k) == WithKey(b[1..], k)
    {
      WithKeyCons(a[0], a[1..], k);
      WithKeyCons(b[0], b[1..], k);
      var p := KeepIf(a[0], k);
      assert (p + WithKey(a[1..], k))[|p|..] == WithKey(a[1..], k);
      assert (p + WithKey(b[1..], k))[|p|..] == WithKey(b[1..], k);
    }
  }

  /** A sorted, stable rearrangement is unique: any sequence that is sorted by
      key and keeps every key's subsequence of `s` is `SortByKey(s)`, so the
      model orders exactly as Python's `sorted` does. */
  lemma {:induction false} StableSortUnique(a: seq<string>, b: seq<string>)
    requires SortedByKey(a) && SortedByKey(b)
    requires SameKeyOrder(a, b)
    ensures a == b
    decreases |a|
  {
    FirstIsKept(a);
    FirstIsKept(b);
    if |a| > 0 && |b| > 0 {
      SameHead(a, b);
      SameTailOrder(a, b);
      StableSortUnique(a[1..], b[1..]);
      assert a == [a[0]] + a[1..] && b == [b[0]] + b[1..];
    }
  }

  /** `SortByKey` is the one result Python's stable `sorted` can give. */
  lemma SortByKeyIsTheStableSort(s: seq<string>, r: seq<string>)
    requires SortedByKey(r) && SameKeyOrder(r, s)
    ensures r == SortByKey(s)
  {
    SortByKeyIsStableSort(s);
    StableSortUnique(r, SortByKey(s));
  }

  /** One step of the sort: the head is inserted into the sorted tail. */
  lemma SortByKeyCons(x: string, t: seq<string>)
    ensures SortByKey([x] + t) == Insert(x, SortByKey(t))
  {
    assert ([x] + t)[1..] == t;
  }

  /** The sort key of a node `<s>_c000<d>:root`, the top node the host hands
      back for a reference loaded under namespace `<s>_c000<d>`: the copy
      digit comes first. */
  lemma KeyOfCopy(src: char, digit: char)
    requires src != ':' && digit != ':'
    ensures SortKey([src] + "_c000" + [digit] + ":root") == [digit] + "000c_" + [src]
  {
    var p := [src] + "_c000" + [digit];
    assert ':' !in p;
    assert [src] + "_c000" + [digit] + ":root" == p + ":root";
    BaseNamespaceOfSplit(p, ":root");
    assert Reverse(p) == [digit] + "000c_" + [src];
  }

  /** Example nodes: copies 1 and 2 of sources "a:root" and "b:root", as the
      host names them when each copy asks for namespace `a_c0001` or
      `b_c0001` and the second copy is numbered on. */
  const A1: string := ['a'] + "_c000" + ['1'] + ":root"
  const A2: string := ['a'] + "_c000" + ['2'] + ":root"
  const B1: string := ['b'] + "_c000" + ['1'] + ":root"
  const B2: string := ['b'] + "_c000" + ['2'] + ":root"

  /** Keys of the example nodes in increasing order: copy 1 of "a", copy 1 of
      "b", copy 2 of "a", copy 2 of "b". */
  lemma ExampleKeysOrdered()
    ensures LexLess(SortKey(A1), SortKey(B1))
    ensures LexLess(SortKey(B1), SortKey(A2))
    ensures LexLess(SortKey(A2), SortKey(B2))
  {
    KeyOfCopy('a', '1');
    KeyOfCopy('a', '2');
    KeyOfCopy('b', '1');
    KeyOfCopy('b', '2');
    LexLessLast(['1'] + "000c_", 'a', 'b');
    LexLessLast(['2'] + "000c_", 'a', 'b');
  }

  /** Two elements already in key order stay as they are. */
  lemma {:induction false} SortPair(x: string, y: string)
    requires !LexLess(SortKey(y), SortKey(x))
    ensures SortByKey([x, y]) == [x, y]
  {
    SortByKeyCons(y, []);
    assert [y] + [] == [y];
    SortByKeyCons(x, [y]);
    InsertBefore(x, y, []);
    assert [x] + [y] == [x, y];
  }

  /** `x` lands between a sorted pair when its key lies between theirs. */
  lemma {:induction false} SortIntoMiddle(x: string, y: string, z: string)
    requires !LexLess(SortKey(z), SortKey(y))
    requires LexLess(SortKey(y), SortKey(x)) && !LexLess(SortKey(z), SortKey(x))
    ensures SortByKey([x, y, z]) == [y, x, z]
  {
    SortPair(y, z);
    ThreeLiterals(x, y, z);
    SortByKeyCons(x, [y, z]);
    InsertPast(x, y, [z]);
    InsertBefore(x, z, []);
  }

  /** The sequence identities `SortIntoMiddle` relies on. */
  lemma ThreeLiterals(x: string, y: string, z: string)
    ensures [x] + [y, z] == [x, y, z]
    ensures [y] + [z] == [y, z]
    ensures [x, z] + [] == [x, z]
    ensures [y] + [x, z] == [y, x, z]
  {
  }

  /** Two sources with two copies each, handed back source by source, come
      out copy by copy when copy 1's keys sort before copy 2's. */
  lemma {:induction false} SortInterleavesTwoByTwo(a1: string, a2: string, b1: string, b2: string)
    requires LexLess(SortKey(a1), SortKey(b1))
    requires LexLess(SortKey(b1), SortKey(a2))
    requires LexLess(SortKey(a2), SortKey(b2))
    ensures SortByKey([a1, a2, b1, b2]) == [a1, b1, a2, b2]
  {
    LexLessAsymmetric(SortKey(a1), SortKey(b1));
    LexLessAsymmetric(SortKey(a2), SortKey(b2));
    LexLessTransitive(SortKey(b1), SortKey(a2), SortKey(b2));
    LexLessAsymmetric(SortKey(b1), SortKey(b2));
    SortIntoMiddle(a2, b1, b2);
    SortByKeyCons(a1, [a2, b1, b2]);
    InsertBefore(a1, b1, [a2, b2]);
    Literals(a1, a2, b1, b2);
  }

  /** The sequence identities the example steps rely on. */
  lemma Literals(w: string, x: string, y: string, z: string)
    ensures [w] + [x, y, z] == [w, x, y, z]
    ensures [y] + [x, z] == [y, x, z]
    ensures [w, y] + [x, z] == [w, y, x, z]
  {
  }

  /** Example: the nodes of two sources with two copies each, handed back
      source by source, sort copy by copy, because the reversed key puts the
      copy digit first. */
  lemma ExampleSortCopyByCopy()
    ensures SortByKey([A1, A2, B1, B2]) == [A1, B1, A2, B2]
  {
    ExampleKeysOrdered();
    SortInterleavesTwoByTwo(A1, A2, B1, B2);
  }
}

=== FILE: namespace.dfy ===
/** The namespace each new reference is loaded under. */
module Namespace {
  import opened Strings

  /** The fixed tag appended to every cloned namespace. */
  const Suffix: string := "_c0001"

  /** The "Namespace" combo box: "From selection" or "Custom" with the
      text typed beside it. */
  datatype NamespaceMode = FromSelection | Custom(customText: string)

  /** The part of a derived namespace in front of the suffix. */
  function Stem(ns: string): string
    requires |ns| >= |Suffix|
  {
    ns[..|ns| - |Suffix|]
  }

  /** The namespace for every copy of the reference named `refName`. */
  function DeriveNamespace(refName: string, mode: NamespaceMode): string
  {
    match mode
    case Custom(text) => text + Suffix
    case FromSelection => BaseNamespace(refName) + Suffix
  }

  /** A derived namespace ends in the suffix. In front of it stands the custom
      text, or, from the selection, the reference name up to its first ':'
      (all of it when there is none). */
  lemma DeriveNamespaceShape(refName: string, mode: NamespaceMode)
    ensures var ns := DeriveNamespace(refName, mode);
      && |ns| >= |Suffix| && ns[|ns| - |Suffix|..] == Suffix
      && (mode.Custom? ==> Stem(ns) == mode.customText)
      && (mode.FromSelection? ==>
            && Stem(ns) <= refName
            && ':' !in Stem(ns)
            && (Stem(ns) == refName || refName[|Stem(ns)|] == ':'))
  {
    var ns := DeriveNamespace(refName, mode);
    var stem := if mode.Custom? then mode.customText else BaseNamespace(refName);
    assert ns == stem + Suffix;
    assert Stem(ns) == stem;
  }

  /** In "From selection" mode the namespace holds no ':' at all. */
  lemma FromSelectionHasNoColon(refName: string)
    ensures ':' !in DeriveNamespace(refName, FromSelection)
  {
    var ns := DeriveNamespace(refName, FromSelection);
    DeriveNamespaceShape(refName, FromSelection);
    assert ns == Stem(ns) + Suffix;
    assert ':' !in Suffix;
  }

  /** In "Custom" mode every source gets the same namespace. */
  lemma CustomIgnoresSource(a: string, b: string, text: string)
    ensures DeriveNamespace(a, Custom(text)) == DeriveNamespace(b, Custom(text))
  {
  }

  /** Example: the reference "charA:root" is cloned under "charA_c0001". */
  lemma ExampleFromSelection()
    ensures DeriveNamespace("charA:root", FromSelection) == "charA_c0001"
  {
    assert "charA:root" == "charA" + ":root";
    BaseNamespaceOfSplit("charA", ":root");
  }
}

=== FILE: placement.dfy ===
/** Where each copy is placed: an arithmetic progression from its source. */
module Placement {

  /** A translate or offset, one value per axis; the doubles are modelled
      as exact reals. */
  datatype Vec3 = Vec3(x: real, y: real, z: real)

  const Zero := Vec3(0.0, 0.0, 0.0)

  function Add(a: Vec3, b: Vec3): Vec3
  {
    Vec3(a.x + b.x, a.y + b.y, a.z + b.z)
  }

  function Scale(v: Vec3, k: real): Vec3
  {
    Vec3(v.x * k, v.y * k, v.z * k)
  }

  /** One axis: `a + o + o * n` is `a` plus `n + 1` offsets. */
  lemma AxisStep(a: real, o: real, n: nat)
    ensures a + o + o * (n as real) == a + o * ((n + 1) as real)
  {
    assert (n + 1) as real == n as real + 1.0;
  }

  /** Position of copy `n` (0-based) of a source whose queried translate is
      `anchor`: per axis `anchor + offset + offset * n`. The result is set in
      world space; the anchor is read without the world-space flag. */
  function ComputePosition(anchor: Vec3, offset: Vec3, n: nat): Vec3
  {
    Vec3(anchor.x + offset.x + offset.x * n as real,
         anchor.y + offset.y + offset.y * n as real,
         anchor.z + offset.z + offset.z * n as real)
  }

  /** Copy `n` sits `n + 1` offsets away from its anchor. */
  lemma PositionIsProgression(anchor: Vec3, offset: Vec3, n: nat)
    ensures ComputePosition(anchor, offset, n) == Add(anchor, Scale(offset, (n + 1) as real))
  {
    AxisStep(anchor.x, offset.x, n);
    AxisStep(anchor.y, offset.y, n);
    AxisStep(anchor.z, offset.z, n);
  }

  /** Copy 0 sits exactly one offset away from the anchor. */
  lemma FirstCopyOneOffsetAway(anchor: Vec3, offset: Vec3)
    ensures ComputePosition(anchor, offset, 0) == Add(anchor, offset)
  {
  }

  /** Consecutive copies differ by exactly the offset. */
  lemma ConsecutiveCopiesStep(anchor: Vec3, offset: Vec3, n: nat)
    ensures ComputePosition(anchor, offset, n + 1) == Add(ComputePosition(anchor, offset, n), offset)
  {
    assert (n + 1) as real == n as real + 1.0;
  }

  /** A copy lands on its anchor exactly when the offset is zero. */
  lemma CopyOnAnchorIffZeroOffset(anchor: Vec3, offset: Vec3, n: nat)
    ensures ComputePosition(anchor, offset, n) == anchor <==> offset == Zero
  {
  }

  /** With a non-zero offset, no two copies of one source coincide. */
  lemma CopiesDistinct(anchor: Vec3, offset: Vec3, n: nat, m: nat)
    requires offset != Zero && n != m
    ensures ComputePosition(anchor, offset, n) != ComputePosition(anchor, offset, m)
  {
  }
}

=== FILE: strings.dfy ===
/** String operations the clone tool relies on, written the way Python
    evaluates them on `str` values: splitting at the first ':', reversing,
    and comparing with `<`. */
module Strings {

  /** `s.split(':')[0]`: the text before the first ':', or all of `s`
      when it has none. */
  function BaseNamespace(s: string): (r: string)
    ensures r <= s
    ensures ':' !in r
    ensures r == s || s[|r|] == ':'
  {
    if |s| == 0 || s[0] == ':' then [] else [s[0]] + BaseNamespace(s[1..])
  }

  /** The base namespace of `p + rest` is `p` when `p` has no ':' and `rest`
      starts at a ':' (or is empty). */
  lemma {:induction false} BaseNamespaceOfSplit(p: string, rest: string)
    requires ':' !in p
    requires rest == [] || rest[0] == ':'
    ensures BaseNamespace(p + rest) == p
  {
    if |p| > 0 {
      assert (p + rest)[1..] == p[1..] + rest;
      BaseNamespaceOfSplit(p[1..], rest);
    }
  }

  /** `''.join(reversed(s))`. */
  function Reverse(s: string): (r: string)
    ensures |r| == |s|
    ensures forall i :: 0 <= i < |s| ==> r[i] == s[|s| - 1 - i]
  {
    if |s| == 0 then [] else Reverse(s[1..]) + [s[0]]
  }

  /** Python's `a < b` on `str`: lexicographic by code point, where a proper
      prefix comes first. (Dafny's own `<` on sequences means proper prefix,
      so it is not used for this.) */
  predicate LexLess(a: string, b: string)
  {
    |b| > 0 && (|a| == 0 || a[0] < b[0] || (a[0] == b[0] && LexLess(a[1..], b[1..])))
  }

  /** `a <= b` in Python's order, expressed through `<` alone. */
  predicate LexLe(a: string, b: string)
  {
    !LexLess(b, a)
  }

  lemma {:induction false} LexLessIrreflexive(a: string)
    ensures !LexLess(a, a)
  {
    if |a| > 0 {
      LexLessIrreflexive(a[1..]);
    }
  }

  lemma {:induction false} LexLessTransitive(a: string, b: string, c: string)
    requires LexLess(a, b) && LexLess(b, c)
    ensures LexLess(a, c)
  {
    if |a| > 0 && a[0] == b[0] && b[0] == c[0] {
      LexLessTransitive(a[1..], b[1..], c[1..]);
    }
  }

  lemma LexLessAsymmetric(a: string, b: string)
    requires LexLess(a, b)
    ensures !LexLess(b, a)
  {
    if LexLess(b, a) {
      LexLessTransitive(a, b, a);
      LexLessIrreflexive(a);
    }
  }

  /** Two strings that agree up to their last character are ordered by it. */
  lemma {:induction false} LexLessLast(m: string, x: char, y: char)
    requires x < y
    ensures LexLess(m + [x], m + [y])
  {
    if |m| > 0 {
      assert (m + [x])[1..] == m[1..] + [x];
      assert (m + [y])[1..] == m[1..] + [y];
      LexLessLast(m[1..], x, y);
    }
  }

  /** Any two strings are ordered one way or the other, or are equal. */
  lemma {:induction false} LexTrichotomy(a: string, b: string)
    ensures LexLess(a, b) || LexLess(b, a) || a == b
  {
    if |a| > 0 && |b| > 0 && a[0] == b[0] {
      LexTrichotomy(a[1..], b[1..]);
      if a[1..] == b[1..] {
        assert a == [a[0]] + a[1..] && b == [b[0]] + b[1..];
      }
    }
  }

  /** `<=` is a total order: reflexive, antisymmetric, transitive, total. */
  lemma LexLeTotalOrder(a: string, b: string, c: string)
    ensures LexLe(a, a)
    ensures LexLe(a, b) || LexLe(b, a)
    ensures LexLe(a, b) && LexLe(b, a) ==> a == b
    ensures LexLe(a, b) && LexLe(b, c) ==> LexLe(a, c)
  {
    LexLessIrreflexive(a);
    LexTrichotomy(a, b);
    LexTrichotomy(b, c);
    LexTrichotomy(a, c);
    if LexLess(b, a) && LexLess(c, b) {
      LexLessTransitive(c, b, a);
    }
    if LexLess(a, b) && LexLess(b, a) {
      LexLessTransitive(a, b, a);
      LexLessIrreflexive(a);
    }
    if LexLess(c, a) && LexLe(a, b) && LexLe(b, c) {
      // c < a and not (b < a) gives b == a or a < b; either way c < b
      if a == b {
      } else {
        LexLessTransitive(c, a, b);
      }
    }
  }
}
